=== FILE: README.md ===
# lax_dma channel driver: a Dafny model

This project models `lax_dma`, a small driver for the RP2040 DMA engine, together with the experiments that exercise it.

The driver has four parts:

- **Codes.** The trigger-source code (`TxReq`) and the word-size code (`TxSize`) each map to a fixed hardware value. `TxReq::from` is a partial decoder: any byte outside 0–39 and 59–63 panics.
- **Programming a channel.** `new` and `new_chained` turn a `Config` into one control word. They then issue a fixed register program: a barrier, a control reset, the control write, the read address, the transfer count, and the destination. The destination goes through the trigger alias when `start` is set, and through the plain write-address register otherwise.
- **The handle.** `trigger` writes the mask `1 << id | 1 << chain` to the multi-channel trigger register. Every handle in the experiments comes from `new`, whose chain channel is the channel itself, so there the mask has a single bit; only `new_chained` with a different chain channel would give two. `is_done` and `wait` poll the busy flag. The queries read channel registers back. Dropping a handle waits and then resets the control register.
- **The experiments.** They pin down the transfer behaviour with twelve four-byte vectors. They also size and wire three PIO pipelines. In one of them, a channel writes another channel's read-address trigger alias.

## Modules

- `Types`: 8- and 32-bit values, the twelve channel ids and `Option`.
- `Codes`: the `TxSize` and `TxReq` codecs.
- `Registers`: the register state of each channel.
  - It keeps the trace of CPU register writes and barriers, and the table of trigger-alias addresses.
  - The hardware's reaction to a trigger is `Fire`.
  - The hardware finishing a channel is `Complete`. It also models writes that land on a trigger alias, and chaining.
- `LaxDma`: the driver operations over that state.
- `TransferSemantics`: a reference semantics of one channel run over two byte buffers. It covers the word size, both increment flags, byte swap and the count.
- `Experiments`: the transfer-count rule, the twelve vectors, the greyscale loop arithmetic, the scenario channel configurations and their wiring.

`wait` is a spin loop that reads a register the hardware changes concurrently. The model gives it the sequence of engine states its polls observe. Those states may differ from the starting state only in registers, never in the CPU's trace or the alias table. The model proves what holds when the loop returns; it does not prove that it returns.

## Model

| member | source | states |
|---|---|---|
| Codes.SizeCode | src/lax_dma.rs:8-12 | the code of every word size is at most 2, so it fits `data_size`; the word is `CodeBytes(code)` bytes wide |
| Codes.CodeBytes | src/lax_dma.rs:8-12 | code 0 names one-byte words and each further code doubles the width |
| Codes.SizeFromCode | src/lax_dma.rs:8-12 | exactly the codes 0–2 name a word size, and decoding inverts `SizeCode` |
| Codes.SizeCodeRoundTrip | src/lax_dma.rs:8-12 | decoding the code of a word size gives that word size back |
| Codes.ReqCode | src/lax_dma.rs:17-63 | every trigger-source code is at most 63, so it fits `treq_sel`, and it lies in the accepted ranges |
| Codes.ReqFromByte | src/lax_dma.rs:65-116 | decoding succeeds exactly for bytes 0–39 and 59–63; every other byte is the panic case |
| Codes.ReqDecodeRoundTrip | src/lax_dma.rs:65-112 | for every accepted byte, the code of the decoded source is the byte itself |
| Codes.ReqRoundTrip | src/lax_dma.rs:17-112 | decoding the code of any trigger source gives that source back |
| Codes.ReqCodeInjective | src/lax_dma.rs:17-63 | no two trigger sources share a code |
| Registers.Effect | src/lax_dma.rs:171-191 | each CPU register write changes only the channel it addresses, and no CPU write changes a latched error flag |
| Registers.Complete | src/lax_dma.rs:207-216 | the hardware finishing a channel keeps the CPU trace and the alias table, and changes no channel other than itself, the owner of the alias its last write hit (none when the run moved no word), and its chain target |
| Registers.AliasHit | src/experiments.rs:364-382 | channel k is hit exactly when the run has at least one word left and its last write lands on k's read-address trigger alias |
| Registers.CompleteZeroCountWritesNothing | src/lax_dma.rs:184-185 | completing an unchained run with a zero count writes no word, so every other channel is unchanged |
| Registers.CompleteStartsChain | src/lax_dma.rs:178 | a finished channel whose `chain_to` names another enabled channel starts that channel |
| Registers.CompleteWritesAlias | src/experiments.rs:364-382 | when a channel (chained or not) that moves at least one word has its last write land on another channel's read-address trigger alias, that channel reads from the written word next and is started with its full count if enabled |
| Registers.CompleteFinishes | src/lax_dma.rs:207-216 | a finished channel, chained or not, is idle with count 0; its control and reload are kept; an incrementing read address has advanced past every word read |
| Registers.CompleteKeepsOthersBusy | src/experiments.rs:384-387 | finishing one channel never stops another, so the later waits still see the other channels running |
| LaxDma.ReadControl | src/lax_dma.rs:171-182 | a control value reads back to configuration fields exactly when its size and trigger codes are valid |
| LaxDma.ControlFor | src/lax_dma.rs:171-182 | the control word always enables the channel, names the chain channel, and holds codes that fit their fields |
| LaxDma.ControlRoundTrip | src/lax_dma.rs:160-182 | the control word carries word size, both increment flags, trigger source, byte swap and priority unchanged, with `chain_to` = chain id and `en` set |
| LaxDma.DestinationWrite | src/lax_dma.rs:186-191 | the destination goes to the trigger alias iff `start`, otherwise to the plain write address, on the channel itself |
| LaxDma.DescriptorWrites | src/lax_dma.rs:168-191 | a barrier comes first; every later write targets the channel; the control write follows a control reset; read address and count are written; the destination write is last and uses the trigger alias iff `start` |
| LaxDma.NewChained | src/lax_dma.rs:160-198 | after programming, the channel's registers hold the configuration; it runs iff `start` (or it was already running) with the full count; no other channel changes; the trace grows by exactly the register program |
| LaxDma.DescriptorEffect | src/lax_dma.rs:171-191 | the register program's combined effect on the channel's registers, and that it leaves every other channel alone |
| LaxDma.New | src/lax_dma.rs:156-158 | `new` is `new_chained` with the channel as its own chain target |
| LaxDma.TriggerMask | src/lax_dma.rs:200-201 | of all 32 bits of the mask, exactly the channel's and its chain channel's are set; when they coincide it is the single bit `1 << id` |
| LaxDma.Trigger | src/lax_dma.rs:200-205 | exactly the channel and its chain channel are triggered, one trigger-register write is recorded, and an enabled channel is busy afterwards |
| LaxDma.ReadTrigAddr | src/lax_dma.rs:238-240 | the address returned is the read-address trigger alias of this channel and of no other |
| LaxDma.QueriesAfterCompletion | src/lax_dma.rs:207-236 | after completion, for any handle whether chained or not, the queries report done, nothing remaining and the advanced read address; the error flags read as they were |
| LaxDma.Poll | src/lax_dma.rs:207-212 | every state the spin loop observes keeps the CPU trace and the alias table |
| LaxDma.Wait | src/lax_dma.rs:211-216 | `wait` returns iff some observed state shows the channel idle; it stops at the first such state and then issues one barrier; if it has not returned, the trace is untouched |
| LaxDma.Drop | src/lax_dma.rs:243-248 | drop returns iff `wait` does; the control register is then reset (disabled, chained to channel 0) and the trace ends with a barrier and the reset; the reset changes nothing else in the registers the hardware has left by then; the channel ends busy (paused) exactly when it was restarted after the last poll, and with no hardware step in between it ends idle with every other register as the first idle poll saw it |
| LaxDma.DroppedChannelStaysIdle | src/lax_dma.rs:200-205 | no trigger of any handle starts a dropped channel again |
| TransferSemantics.Transfer | src/experiments.rs:32-80 | a run is defined exactly when both sides stay inside their buffers; it keeps the destination's length; a zero count leaves it unchanged |
| TransferSemantics.IncrementingWriteGathers | src/experiments.rs:115-204 | with an incrementing destination, the destination starts with the words read, in order, and the rest of it is untouched |
| TransferSemantics.GatheredCopies | src/experiments.rs:115-144 | words read from an incrementing source without swap are the source's leading bytes |
| TransferSemantics.GatheredSwaps | src/experiments.rs:145-174 | with swap, byte b of word i read is byte w-1-b of source word i |
| TransferSemantics.GatheredRepeats | src/experiments.rs:175-204 | from a fixed source, every word read is the first source word |
| TransferSemantics.CopyIsIdentity | src/experiments.rs:115-144 | with both sides incrementing and no swap, the destination equals the source at every word size |
| TransferSemantics.SwapReversesWords | src/experiments.rs:145-174 | with swap, every byte of the destination's whole words is the mirrored byte of the same source word, and the bytes past the last word are untouched |
| TransferSemantics.ByteSwapOfBytesIsCopy | src/experiments.rs:145-154 | swapping one-byte words changes nothing |
| TransferSemantics.FixedSourceFills | src/experiments.rs:175-204 | with a fixed source, every destination word is the first source word |
| TransferSemantics.FixedDestinationKeepsLast | src/experiments.rs:205-234 | with a fixed destination, the first word holds the last word read and the other bytes keep their prior values |
| Experiments.TestTxCount | src/experiments.rs:47-51 | the count is the number of whole words in the destination, and exactly its length in words when the length is a multiple of the word width |
| Experiments.FourByteCounts | src/experiments.rs:47-51 | for the four-byte test buffers the count is 4 bytes, 2 half-words or 1 word |
| Experiments.TestDmaConfig | src/experiments.rs:54-69 | each test's configuration uses that count, is unpaced (`Permanent`), has normal priority and is not started |
| Experiments.CopyResults | src/experiments.rs:115-144 | the three copy tests produce [42,43,44,45] |
| Experiments.Swap8Result | src/experiments.rs:145-154 | the 8-bit swap test produces [42,43,44,45] |
| Experiments.Swap16Result | src/experiments.rs:155-164 | the 16-bit swap test produces [43,42,45,44] |
| Experiments.Swap32Result | src/experiments.rs:165-174 | the 32-bit swap test produces [45,44,43,42] |
| Experiments.Fill8Result | src/experiments.rs:175-184 | the 8-bit fill test produces [42,42,42,42] |
| Experiments.Fill16Result | src/experiments.rs:185-194 | the 16-bit fill test produces [42,43,42,43] |
| Experiments.Fill32Result | src/experiments.rs:195-204 | the 32-bit fill test produces [42,43,44,45] |
| Experiments.FixedDestination8Result | src/experiments.rs:205-214 | the 8-bit fixed-destination test produces [45,0,0,0] |
| Experiments.FixedDestination16Result | src/experiments.rs:215-224 | the 16-bit fixed-destination test produces [44,45,0,0] |
| Experiments.FixedDestination32Result | src/experiments.rs:225-234 | the 32-bit fixed-destination test produces [42,43,44,45] |
| Experiments.CopyTestsPass | src/experiments.rs:115-144 | tests 0–2 pass: their transfer leaves exactly the expected buffer |
| Experiments.SwapTestsPass | src/experiments.rs:145-174 | tests 3–5 pass |
| Experiments.FillTestsPass | src/experiments.rs:175-204 | tests 6–8 pass |
| Experiments.FixedDestinationTestsPass | src/experiments.rs:205-234 | tests 9–11 pass |
| Experiments.DmaTestsPass | src/experiments.rs:112-240 | all twelve tests pass |
| Experiments.RunDmaTestStart | src/experiments.rs:71-79 | `new` on channel 5 followed by `trigger` leaves channel 5 enabled, chained to itself and running with the test's count, and no other channel changes |
| Experiments.RunDmaTestStartsTransfer | src/experiments.rs:32-79 | on channel 5, after `new` and `trigger`, the channel runs the test's transfer: the test's count, source and destination, and its flags read back from the control word with `Permanent` and chain 5; the CPU issued the register program and then the mask `1 << 5` |
| Experiments.Bpp | src/experiments.rs:15-19 | every depth is 1, 2 or 4 bits per pixel, never zero |
| Experiments.Expansion | src/experiments.rs:512-513 | `12 / bpp` times `bpp` is exactly 12 at every depth |
| Experiments.RepeatCounter | src/experiments.rs:486-496 | the loop counter `12 / bpp - 1` is a natural number one below the expansion and fits the `set` immediate |
| Experiments.LoopBits | src/experiments.rs:494-501 | the `in x, bpp` / `jmp y--` loop pushes `(y + 1) * bpp` bits |
| Experiments.PixelExpandsToTwelveBits | src/experiments.rs:483-501 | each pixel becomes exactly 12 bits at every depth |
| Experiments.Expand12TimesCounter | src/experiments.rs:409-416 | the hand-written 1-bpp program's `set y, 11` is the counter the generator computes for 1 bpp |
| Experiments.ProducedBits | src/experiments.rs:483-501 | the expansion turns n input bytes into n·8·12/bpp bits |
| Experiments.InvertRx | src/experiments.rs:305-322 | channel 3 receives SIZE/4 words, exactly the 32-byte buffer |
| Experiments.InvertForward | src/experiments.rs:325-342 | channel 2 forwards SIZE/4 words |
| Experiments.InvertTx | src/experiments.rs:345-362 | channel 1 feeds SIZE/4 words |
| Experiments.InvertConfigure | src/experiments.rs:364-380 | channel 0 moves one word, to a fixed destination: the given trigger alias |
| Experiments.InvertTwiceStart | src/experiments.rs:305-382 | the scenario's driver calls keep the alias table |
| Experiments.InvertTwiceStarted | src/experiments.rs:305-382 | after the trigger, channels 3 and 2 wait with 8 words each; channel 1 is enabled and idle with reload 8; channel 0 runs one word aimed at channel 1's trigger alias |
| Experiments.InvertTwiceWiring | src/experiments.rs:345-382 | completing channel 0 sets channel 1's source to the copied word (the input buffer's address) and starts channel 1 with 8 words; channel 0 is then done and channels 2 and 3 still run |
| Experiments.ExpandTx | src/experiments.rs:433-450 | the transmit count is the number of whole words in the input |
| Experiments.Expand12Rx | src/experiments.rs:452-467 | `expand_12times` receives `12 * SIZE / 4` words, 48 bytes |
| Experiments.DynamicRx | src/experiments.rs:555-570 | `expand_dynamic` receives `(12 / bpp) * SIZE` bytes |
| Experiments.InvertReceiveFits | src/experiments.rs:248-362 | the receive channel moves 8 words, exactly the 32-byte output buffer, one word out per word fed in |
| Experiments.Expand12ReceiveFits | src/experiments.rs:399-463 | the receive channel moves exactly 48 bytes into the 48-byte buffer, which is exactly the bits the 1-bpp expansion produces from the 4 input bytes |
| Experiments.DynamicReceiveFits | src/experiments.rs:512-566 | the receive channel's `(12 / bpp) * 8` bytes fit the 96-byte buffer (filling it at 1 bpp) and are exactly the bits the expansion produces from the 8 input bytes |
| Experiments.ExpandStartsBoth | src/experiments.rs:470-471 | triggering the two idle expansion channels one after the other leaves both running their full counts, paced by PIO0 TX0 and RX0 |

## Left out

- `src/main.rs` and `src/uart_log.rs` are not part of this model. They hold the logger, UART, clock and pin setup and the boot block, which are all I/O.
- PIO program execution is not modelled: the programs are assembled and run by foreign crates. The model keeps only the arithmetic around them: the expansion factor, the loop counter, and bits in versus bits out.
- Memory ordering. `dsb` and `compiler_fence` appear only as `Barrier` events in the trace. The DMA engine's concurrent progress is the explicit `Complete` step and the observed poll states given to `Wait`.
- Wait: the loop is not proved to terminate. It has no timeout, and mutually chained channels may never finish. `Wait` and `Drop` state only what holds when they return.
- Raw pointers, real register addresses and bit positions. Addresses are abstract 32-bit values, and the trigger aliases are a table of distinct addresses. Register fields are a record.
- Channel ownership is not modelled: the code keeps no registry; `new` records nothing (src/lax_dma.rs:156-163), and nothing stops two handles on one channel.
- Registers.Complete: memory contents are not part of the engine model. The last word read is a parameter. Only the channel's last write is checked against the trigger aliases. Channel 0 of the inversion pipeline (src/experiments.rs:364-380) is the only transfer aimed at a trigger alias; every other transfer writes to a PIO FIFO or a RAM buffer, so none of its writes can hit an alias.
- LaxDma.Drop: the hardware's activity between the last poll and the reset is a parameter, the register file the reset meets. The model does not derive it from `Complete` steps, so it promises an idle channel only when nothing happened in that window.
- Registers.Complete: a channel that is busy but disabled is paused on the RP2040 and does not finish; the step does not require `en`. No stated property depends on that case.
- Registers.Complete: with the reserved data-size code 3 the step is not defined. The driver never writes it, as `ControlFor` shows.
- TransferSemantics.Transfer: a run that would reach past the end of either buffer gives `None`, so the model leaves it undescribed; the hardware performs it unchecked and writes whatever memory lies beyond.
- The twelve channels and the channel-reset value of the control register (all fields zero) are hardware facts and do not appear in the driver's source.
- The latched read and write error flags are never set or cleared by the model. The driver never writes them; it only reads them.
- The `log` output of the experiments, and the final buffer comparison as a runtime check. The comparison appears as `Experiments.Passes`.
- LaxDma.IsDone, ReadError, WriteError, LastReadAddr, LastWriteAddr, TxCountRemaining: each only reads one register field and carries no contract of its own. What they report after a completion is stated by `LaxDma.QueriesAfterCompletion`.

=== FILE: codes.dfy ===
/** The hardware codes of the two enumerations the control register takes:
    the transfer word size and the transfer-request (pacing) source. */
module Codes {
  import opened Types

  /** Size of one DMA transfer; the hardware codes are 0, 1 and 2. */
  datatype TxSize = Bits8 | Bits16 | Bits32

  /** The `data_size` code of a word size (the enum's `u8` representation). */
  function SizeCode(s: TxSize): (c: nat)
    ensures c <= 2
    ensures WordBytes(s) == CodeBytes(c)
  {
    match s
    case Bits8 => 0
    case Bits16 => 1
    case Bits32 => 2
  }

  /** Width of one transfer in bytes. */
  function WordBytes(s: TxSize): (n: nat)
    ensures n == 1 || n == 2 || n == 4
  {
    match s
    case Bits8 => 1
    case Bits16 => 2
    case Bits32 => 4
  }

  /** The word width in bytes named by a `data_size` code: each code step
      doubles the width, starting from one byte. */
  function CodeBytes(c: nat): (n: nat)
    requires c <= 2
    ensures c == 0 ==> n == 1
    ensures c > 0 ==> n == 2 * CodeBytes(c - 1)
  {
    if c == 0 then 1 else if c == 1 then 2 else 4
  }

  /** Reads a `data_size` field back; code 3 is reserved by the hardware. */
  function SizeFromCode(c: nat): (r: Option<TxSize>)
    ensures r.Some? <==> c <= 2
    ensures r.Some? ==> SizeCode(r.value) == c
  {
    if c == 0 then Some(Bits8)
    else if c == 1 then Some(Bits16)
    else if c == 2 then Some(Bits32)
    else None
  }

  /** Reading back the code of a word size gives the same word size. */
  lemma SizeCodeRoundTrip(s: TxSize)
    ensures SizeFromCode(SizeCode(s)) == Some(s)
  {
  }

  /** The transfer-request (DREQ) sources: PIO FIFOs, SPI, UART, PWM wraps, I2C,
      ADC, XIP streams, four pacing timers and the unpaced `Permanent` source. */
  datatype TxReq =
    | Pio0Tx0
    | Pio0Tx1
    | Pio0Tx2
    | Pio0Tx3
    | Pio0Rx0
    | Pio0Rx1
    | Pio0Rx2
    | Pio0Rx3
    | Pio1Tx0
    | Pio1Tx1
    | Pio1Tx2
    | Pio1Tx3
    | Pio1Rx0
    | Pio1Rx1
    | Pio1Rx2
    | Pio1Rx3
    | Spi0Tx
    | Spi0Rx
    | Spi1Tx
    | Spi1Rx
    | Uart0Tx
    | Uart0Rx
    | Uart1Tx
    | Uart1Rx
    | PwmWrap0
    | PwmWrap1
    | PwmWrap2
    | PwmWrap3
    | PwmWrap4
    | PwmWrap5
    | PwmWrap6
    | PwmWrap7
    | I2C0Tx
    | I2C0Rx
    | I2C1Tx
    | I2C1Rx
    | Adc
    | XipStream
    | XipSsitx
    | XipSsirx
    | Timer0
    | Timer1
    | Timer2
    | Timer3
    | Permanent

  /** The `treq_sel` code of a request source (the enum's `u8` representation). */
  function ReqCode(r: TxReq): (c: u8)
    ensures c <= 63
    ensures IsReqCode(c)
  {
    match r
    case Pio0Tx0 => 0
    case Pio0Tx1 => 1
    case Pio0Tx2 => 2
    case Pio0Tx3 => 3
    case Pio0Rx0 => 4
    case Pio0Rx1 => 5
    case Pio0Rx2 => 6
    case Pio0Rx3 => 7
    case Pio1Tx0 => 8
    case Pio1Tx1 => 9
    case Pio1Tx2 => 10
    case Pio1Tx3 => 11
    case Pio1Rx0 => 12
    case Pio1Rx1 => 13
    case Pio1Rx2 => 14
    case Pio1Rx3 => 15
    case Spi0Tx => 16
    case Spi0Rx => 17
    case Spi1Tx => 18
    case Spi1Rx => 19
    case Uart0Tx => 20
    case Uart0Rx => 21
    case Uart1Tx => 22
    case Uart1Rx => 23
    case PwmWrap0 => 24
    case PwmWrap1 => 25
    case PwmWrap2 => 26
    case PwmWrap3 => 27
    case PwmWrap4 => 28
    case PwmWrap5 => 29
    case PwmWrap6 => 30
    case PwmWrap7 => 31
    case I2C0Tx => 32
    case I2C0Rx => 33
    case I2C1Tx => 34
    case I2C1Rx => 35
    case Adc => 36
    case XipStream => 37
    case XipSsitx => 38
    case XipSsirx => 39
    case Timer0 => 59
    case Timer1 => 60
    case Timer2 => 61
    case Timer3 => 62
    case Permanent => 63
  }

  /** The bytes that name a request source: 0 to 39 and 59 to 63. */
  predicate IsReqCode(v: u8)
  {
    v <= 39 || 59 <= v <= 63
  }

  /** Conversion of a byte into a request source; `None` is the panic on an
      invalid value. */
  function ReqFromByte(v: u8): (r: Option<TxReq>)
    ensures r.Some? <==> IsReqCode(v)
  {
    match v
    case 0 => Some(Pio0Tx0)
    case 1 => Some(Pio0Tx1)
    case 2 => Some(Pio0Tx2)
    case 3 => Some(Pio0Tx3)
    case 4 => Some(Pio0Rx0)
    case 5 => Some(Pio0Rx1)
    case 6 => Some(Pio0Rx2)
    case 7 => Some(Pio0Rx3)
    case 8 => Some(Pio1Tx0)
    case 9 => Some(Pio1Tx1)
    case 10 => Some(Pio1Tx2)
    case 11 => Some(Pio1Tx3)
    case 12 => Some(Pio1Rx0)
    case 13 => Some(Pio1Rx1)
    case 14 => Some(Pio1Rx2)
    case 15 => Some(Pio1Rx3)
    case 16 => Some(Spi0Tx)
    case 17 => Some(Spi0Rx)
    case 18 => Some(Spi1Tx)
    case 19 => Some(Spi1Rx)
    case 20 => Some(Uart0Tx)
    case 21 => Some(Uart0Rx)
    case 22 => Some(Uart1Tx)
    case 23 => Some(Uart1Rx)
    case 24 => Some(PwmWrap0)
    case 25 => Some(PwmWrap1)
    case 26 => Some(PwmWrap2)
    case 27 => Some(PwmWrap3)
    case 28 => Some(PwmWrap4)
    case 29 => Some(PwmWrap5)
    case 30 => Some(PwmWrap6)
    case 31 => Some(PwmWrap7)
    case 32 => Some(I2C0Tx)
    case 33 => Some(I2C0Rx)
    case 34 => Some(I2C1Tx)
    case 35 => Some(I2C1Rx)
    case 36 => Some(Adc)
    case 37 => Some(XipStream)
    case 38 => Some(XipSsitx)
    case 39 => Some(XipSsirx)
    case 59 => Some(Timer0)
    case 60 => Some(Timer1)
    case 61 => Some(Timer2)
    case 62 => Some(Timer3)
    case 63 => Some(Permanent)
    case _ => None
  }

  /** Every accepted byte is the code of the request source it decodes to. */
  lemma ReqDecodeRoundTrip(v: u8)
    requires IsReqCode(v)
    ensures ReqFromByte(v).Some? && ReqCode(ReqFromByte(v).value) == v
  {
    if v <= 4 {
      ReqDecodeRange0(v);
    } else if v <= 9 {
      ReqDecodeRange5(v);
    } else if v <= 14 {
      ReqDecodeRange10(v);
    } else if v <= 19 {
      ReqDecodeRange15(v);
    } else if v <= 24 {
      ReqDecodeRange20(v);
    } else if v <= 29 {
      ReqDecodeRange25(v);
    } else if v <= 34 {
      ReqDecodeRange30(v);
    } else if v <= 39 {
      ReqDecodeRange35(v);
    } else if v <= 63 {
      ReqDecodeRange59(v);
    }
  }

  // ReqDecodeRange0 to ReqDecodeRange59 each state the round trip for a few
  // consecutive bytes. The solver unfolds the 45-arm decoder once per byte;
  // one lemma over the whole accepted domain runs out of resource, so
  // `ReqDecodeRoundTrip` dispatches to these slices.
  lemma ReqDecodeRange0(v: u8)
    requires 0 <= v <= 4
    ensures ReqFromByte(v).Some? && ReqCode(ReqFromByte(v).value) == v
  {
  }

  lemma ReqDecodeRange5(v: u8)
    requires 5 <= v <= 9
    ensures ReqFromByte(v).Some? && ReqCode(ReqFromByte(v).value) == v
  {
  }

  lemma ReqDecodeRange10(v: u8)
    requires 10 <= v <= 14
    ensures ReqFromByte(v).Some? && ReqCode(ReqFromByte(v).value) == v
  {
  }

  lemma ReqDecodeRange15(v: u8)
    requires 15 <= v <= 19
    ensures ReqFromByte(v).Some? && ReqCode(ReqFromByte(v).value) == v
  {
  }

  lemma ReqDecodeRange20(v: u8)
    requires 20 <= v <= 24
    ensures ReqFromByte(v).Some? && ReqCode(ReqFromByte(v).value) == v
  {
  }

  lemma ReqDecodeRange25(v: u8)
    requires 25 <= v <= 29
    ensures ReqFromByte(v).Some? && ReqCode(ReqFromByte(v).value) == v
  {
  }

  lemma ReqDecodeRange30(v: u8)
    requires 30 <= v <= 34
    ensures ReqFromByte(v).Some? && ReqCode(ReqFromByte(v).value) == v
  {
  }

  lemma ReqDecodeRange35(v: u8)
    requires 35 <= v <= 39
    ensures ReqFromByte(v).Some? && ReqCode(ReqFromByte(v).value) == v
  {
  }

  lemma ReqDecodeRange59(v: u8)
    requires 59 <= v <= 63
    ensures ReqFromByte(v).Some? && ReqCode(ReqFromByte(v).value) == v
  {
  }

  /** Decoding the code of any request source gives that source back. */
  lemma ReqRoundTrip(r: TxReq)
    ensures ReqFromByte(ReqCode(r)) == Some(r)
  {
  }

  /** Different request sources have different codes. */
  lemma ReqCodeInjective(a: TxReq, b: TxReq)
    ensures ReqCode(a) == ReqCode(b) ==> a == b
  {
    ReqRoundTrip(a);
    ReqRoundTrip(b);
  }
}

=== FILE: experiments.dfy ===
/** The experiments that exercise the driver: the twelve memory-to-memory
    transfer tests with their expected buffers, the transfer-count rule, the
    greyscale expansion arithmetic and the channel sizing and wiring of the
    three PIO pipelines. */
module Experiments {
  import opened Types
  import opened Codes
  import opened Registers
  import opened LaxDma
  import opened TransferSemantics

  /** One memory-to-memory test: buffers, expected destination and flags. */
  datatype TestConfig = TestConfig(
    src: seq<u8>,
    dst: seq<u8>,
    expected: seq<u8>,
    wordSize: TxSize,
    byteSwap: bool,
    incrementSrc: bool,
    incrementDst: bool,
    testName: string)

  /** The transfer count of a test: the destination length in words of the
      test's size. */
  function TestTxCount(size: TxSize, dstLen: u32): (n: u32)
    ensures n * WordBytes(size) <= dstLen < (n + 1) * WordBytes(size)
    ensures dstLen % WordBytes(size) == 0 ==> n * WordBytes(size) == dstLen
  {
    match size
    case Bits8 => dstLen
    case Bits16 => dstLen / 2
    case Bits32 => dstLen / 4
  }

  /** On the tests' four-byte buffers: four, two and one transfers. */
  lemma FourByteCounts()
    ensures TestTxCount(Bits8, 4) == 4
    ensures TestTxCount(Bits16, 4) == 2
    ensures TestTxCount(Bits32, 4) == 1
  {
  }

  /** The driver configuration a test builds: unpaced, normal priority,
      started later by `trigger`. */
  function TestDmaConfig(t: TestConfig, srcAddr: u32, dstAddr: u32): (cfg: Config)
    requires |t.dst| < 0x1_0000_0000
    ensures cfg.txCount == TestTxCount(t.wordSize, |t.dst|)
    ensures cfg.txReq == Permanent && !cfg.start && !cfg.highPriority
  {
    Config(
      t.wordSize,
      Source(srcAddr, t.incrementSrc),
      Destination(dstAddr, t.incrementDst),
      TestTxCount(t.wordSize, |t.dst|),
      Permanent,
      t.byteSwap,
      false,
      false)
  }

  /** The destination a test's transfer leaves behind, per the reference
      semantics. */
  function TestOutcome(t: TestConfig): Option<seq<u8>>
    requires |t.dst| < 0x1_0000_0000
  {
    Transfer(t.src, t.dst, t.wordSize, t.incrementSrc, t.incrementDst, t.byteSwap,
             TestTxCount(t.wordSize, |t.dst|))
  }

  /** A test passes when the destination equals the expected buffer. */
  predicate Passes(t: TestConfig)
    requires |t.dst| < 0x1_0000_0000
  {
    TestOutcome(t) == Some(t.expected)
  }

  const Src: seq<u8> := [42, 43, 44, 45]
  const Zero: seq<u8> := [0, 0, 0, 0]

  /** The twelve tests, in the order they run. */
  const DmaTests: seq<TestConfig> := [
    TestConfig(Src, Zero, [42, 43, 44, 45], Bits8, false, true, true, "dma_test_8bit"),
    TestConfig(Src, Zero, [42, 43, 44, 45], Bits16, false, true, true, "dma_test_16bit"),
    TestConfig(Src, Zero, [42, 43, 44, 45], Bits32, false, true, true, "dma_test_32bit"),
    TestConfig(Src, Zero, [42, 43, 44, 45], Bits8, true, true, true, "dma_test_8bit_byte_swap"),
    TestConfig(Src, Zero, [43, 42, 45, 44], Bits16, true, true, true, "dma_test_16bit_byte_swap"),
    TestConfig(Src, Zero, [45, 44, 43, 42], Bits32, true, true, true, "dma_test_32bit_byte_swap"),
    TestConfig(Src, Zero, [42, 42, 42, 42], Bits8, false, false, true, "dma_test_8bit_fill"),
    TestConfig(Src, Zero, [42, 43, 42, 43], Bits16, false, false, true, "dma_test_16bit_fill"),
    TestConfig(Src, Zero, [42, 43, 44, 45], Bits32, false, false, true, "dma_test_32bit_fill"),
    TestConfig(Src, Zero, [45, 0, 0, 0], Bits8, false, true, false, "dma_test_8bit_dst_fixed"),
    TestConfig(Src, Zero, [44, 45, 0, 0], Bits16, false, true, false, "dma_test_16bit_dst_fixed"),
    TestConfig(Src, Zero, [42, 43, 44, 45], Bits32, false, true, false, "dma_test_32bit_dst_fixed")
  ]

  /** The reference result of each of the twelve tests, in the order they
      run. */
  lemma CopyResults()
    ensures Transfer(Src, Zero, Bits8, true, true, false, 4) == Some([42, 43, 44, 45])
    ensures Transfer(Src, Zero, Bits16, true, true, false, 2) == Some([42, 43, 44, 45])
    ensures Transfer(Src, Zero, Bits32, true, true, false, 1) == Some([42, 43, 44, 45])
  {
    CopyIsIdentity(Src, Zero, Bits8, 4);
    CopyIsIdentity(Src, Zero, Bits16, 2);
    CopyIsIdentity(Src, Zero, Bits32, 1);
  }

  lemma Swap8Result()
    ensures Transfer(Src, Zero, Bits8, true, true, true, 4) == Some([42, 43, 44, 45])
  {
    ByteSwapOfBytesIsCopy(Src, Zero, 4);
  }

  lemma Swap16Result()
    ensures Transfer(Src, Zero, Bits16, true, true, true, 2) == Some([43, 42, 45, 44])
  {
    var r := Transfer(Src, Zero, Bits16, true, true, true, 2);
    SwapReversesWords(Src, Zero, Bits16, 2, 0, 0);
    SwapReversesWords(Src, Zero, Bits16, 2, 0, 1);
    SwapReversesWords(Src, Zero, Bits16, 2, 1, 0);
    SwapReversesWords(Src, Zero, Bits16, 2, 1, 1);
    assert r.value == [43, 42, 45, 44];
  }

  lemma Swap32Result()
    ensures Transfer(Src, Zero, Bits32, true, true, true, 1) == Some([45, 44, 43, 42])
  {
    var r := Transfer(Src, Zero, Bits32, true, true, true, 1);
    SwapReversesWords(Src, Zero, Bits32, 1, 0, 0);
    SwapReversesWords(Src, Zero, Bits32, 1, 0, 1);
    SwapReversesWords(Src, Zero, Bits32, 1, 0, 2);
    SwapReversesWords(Src, Zero, Bits32, 1, 0, 3);
    assert r.value == [45, 44, 43, 42];
  }

  lemma Fill8Result()
    ensures Transfer(Src, Zero, Bits8, false, true, false, 4) == Some([42, 42, 42, 42])
  {
    var r := Transfer(Src, Zero, Bits8, false, true, false, 4);
    FixedSourceFills(Src, Zero, Bits8, false, 4, 0, 0);
    FixedSourceFills(Src, Zero, Bits8, false, 4, 1, 0);
    FixedSourceFills(Src, Zero, Bits8, false, 4, 2, 0);
    FixedSourceFills(Src, Zero, Bits8, false, 4, 3, 0);
    assert r.value == [42, 42, 42, 42];
  }

  lemma Fill16Result()
    ensures Transfer(Src, Zero, Bits16, false, true, false, 2) == Some([42, 43, 42, 43])
  {
    var r := Transfer(Src, Zero, Bits16, false, true, false, 2);
    FixedSourceFills(Src, Zero, Bits16, false, 2, 0, 0);
    FixedSourceFills(Src, Zero, Bits16, false, 2, 0, 1);
    FixedSourceFills(Src, Zero, Bits16, false, 2, 1, 0);
    FixedSourceFills(Src, Zero, Bits16, false, 2, 1, 1);
    assert r.value == [42, 43, 42, 43];
  }

  lemma Fill32Result()
    ensures Transfer(Src, Zero, Bits32, false, true, false, 1) == Some([42, 43, 44, 45])
  {
    var r := Transfer(Src, Zero, Bits32, false, true, false, 1);
    FixedSourceFills(Src, Zero, Bits32, false, 1, 0, 0);
    FixedSourceFills(Src, Zero, Bits32, false, 1, 0, 1);
    FixedSourceFills(Src, Zero, Bits32, false, 1, 0, 2);
    FixedSourceFills(Src, Zero, Bits32, false, 1, 0, 3);
    assert r.value == [42, 43, 44, 45];
  }

  lemma FixedDestination8Result()
    ensures Transfer(Src, Zero, Bits8, true, false, false, 4) == Some([45, 0, 0, 0])
  {
    FixedDestinationKeepsLast(Src, Zero, Bits8, true, false, 4);
    var r := Moved(Src, Zero, Bits8, true, false, false, 4);
    assert Offset(true, 3, 1) == 3;
    assert Src[3..4] == [45];
    assert r[..1] == [45];
    assert r[1..] == Zero[1..];
    assert r == r[..1] + r[1..];
    assert InBounds(|Src|, |Zero|, Bits8, true, false, 4);
    assert r == [45, 0, 0, 0];
    assert Transfer(Src, Zero, Bits8, true, false, false, 4) == Some(r);
  }

  lemma FixedDestination16Result()
    ensures Transfer(Src, Zero, Bits16, true, false, false, 2) == Some([44, 45, 0, 0])
  {
    FixedDestinationKeepsLast(Src, Zero, Bits16, true, false, 2);
    var r := Moved(Src, Zero, Bits16, true, false, false, 2);
    assert Offset(true, 1, 2) == 2;
    assert Src[2..4] == [44, 45];
    assert r[..2] == [44, 45];
    assert r[2..] == Zero[2..];
    assert r == r[..2] + r[2..];
    assert InBounds(|Src|, |Zero|, Bits16, true, false, 2);
    assert r == [44, 45, 0, 0];
    assert Transfer(Src, Zero, Bits16, true, false, false, 2) == Some(r);
  }

  lemma FixedDestination32Result()
    ensures Transfer(Src, Zero, Bits32, true, false, false, 1) == Some([42, 43, 44, 45])
  {
    FixedDestinationKeepsLast(Src, Zero, Bits32, true, false, 1);
    var r := Moved(Src, Zero, Bits32, true, false, false, 1);
    assert Offset(true, 0, 4) == 0;
    assert Src[0..4] == [42, 43, 44, 45];
    assert r[..4] == [42, 43, 44, 45];
    assert r[4..] == Zero[4..];
    assert r == r[..4] + r[4..];
    assert InBounds(|Src|, |Zero|, Bits32, true, false, 1);
    assert r == [42, 43, 44, 45];
    assert Transfer(Src, Zero, Bits32, true, false, false, 1) == Some(r);
  }

  /** Tests 0 to 2: copies. */
  lemma CopyTestsPass()
    ensures forall i :: 0 <= i < 3 ==> |DmaTests[i].dst| == 4 && Passes(DmaTests[i])
  {
    CopyResults();
    FourByteCounts();
  }

  /** Tests 3 to 5: byte swaps. */
  lemma SwapTestsPass()
    ensures forall i :: 3 <= i < 6 ==> |DmaTests[i].dst| == 4 && Passes(DmaTests[i])
  {
    Swap8Result();
    Swap16Result();
    Swap32Result();
    FourByteCounts();
  }

  /** Tests 6 to 8: fixed source. */
  lemma FillTestsPass()
    ensures forall i :: 6 <= i < 9 ==> |DmaTests[i].dst| == 4 && Passes(DmaTests[i])
  {
    Fill8Result();
    Fill16Result();
    Fill32Result();
    FourByteCounts();
  }

  /** Tests 9 to 11: fixed destination. */
  lemma FixedDestinationTestsPass()
    ensures forall i :: 9 <= i < 12 ==> |DmaTests[i].dst| == 4 && Passes(DmaTests[i])
  {
    FixedDestination8Result();
    FixedDestination16Result();
    FixedDestination32Result();
    FourByteCounts();
  }

  /** Every one of the twelve expected buffers is what the reference
      semantics produces. */
  lemma DmaTestsPass()
    ensures |DmaTests| == 12
    ensures forall i :: 0 <= i < |DmaTests| ==> |DmaTests[i].dst| == 4 && Passes(DmaTests[i])
  {
    CopyTestsPass();
    SwapTestsPass();
    FillTestsPass();
    FixedDestinationTestsPass();
  }

  /** A test at the driver level: the channel programmed on channel 5 without
      starting, then triggered. The channel runs with the test's flags,
      unpaced, unchained, and with the whole transfer count ahead of it. */
  function RunDmaTestStart(e: Engine, t: TestConfig, srcAddr: u32, dstAddr: u32): (r: (Engine, Handle))
    requires Valid(e)
    requires |t.dst| < 0x1_0000_0000
    ensures Valid(r.0) && r.1 == Handle(5, 5)
    ensures r.0.regs[5].busy && r.0.regs[5].ctrl.en && r.0.regs[5].ctrl.chainTo == 5
    ensures r.0.regs[5].reload == TestTxCount(t.wordSize, |t.dst|)
    ensures forall k: ChannelId :: k != 5 ==> r.0.regs[k] == e.regs[k]
  {
    var (e1, h) := New(e, TestDmaConfig(t, srcAddr, dstAddr), 5);
    (Trigger(e1, h), h)
  }

  /** From an idle channel 5, the test's channel is running exactly the
      transfer the test describes, and the CPU issued the descriptor writes
      followed by a single-bit trigger. */
  lemma RunDmaTestStartsTransfer(e: Engine, t: TestConfig, srcAddr: u32, dstAddr: u32)
    requires Valid(e)
    requires |t.dst| < 0x1_0000_0000
    requires !e.regs[5].busy
    ensures var (e', h) := RunDmaTestStart(e, t, srcAddr, dstAddr);
      && e'.regs[5].busy
      && TxCountRemaining(e', h) == TestTxCount(t.wordSize, |t.dst|)
      && LastReadAddr(e', h) == srcAddr
      && LastWriteAddr(e', h) == dstAddr
      && ReadControl(e'.regs[5].ctrl) == Some(ControlFields(
           t.wordSize, t.incrementSrc, t.incrementDst, Permanent, t.byteSwap, 5, false, true))
      && e'.trace == e.trace + DescriptorWrites(TestDmaConfig(t, srcAddr, dstAddr), 5, 5)
                     + [MultiChanTrigger(1 << 5)]
  {
    var cfg := TestDmaConfig(t, srcAddr, dstAddr);
    ControlRoundTrip(cfg, 5);
    var (e1, h) := New(e, cfg, 5);
    assert TriggerMask(5, 5) == 1 << 5;
  }

  /** Greyscale depth of a monochrome pixel. */
  datatype MonochromeColor = Bpp1 | Bpp2 | Bpp4

  /** Bits per pixel of a greyscale depth. */
  function Bpp(c: MonochromeColor): (b: nat)
    ensures b == 1 || b == 2 || b == 4
  {
    match c
    case Bpp1 => 1
    case Bpp2 => 2
    case Bpp4 => 4
  }

  /** Bits of one RGB444 output pixel. */
  const RgbBpp: nat := 12

  /** How many times a pixel's bits are repeated to fill one RGB444 pixel. */
  function Expansion(c: MonochromeColor): (f: nat)
    ensures f * Bpp(c) == RgbBpp
  {
    RgbBpp / Bpp(c)
  }

  /** The loop counter the generated program loads into `y`: one less than
      the expansion, as `jmp y--` runs the loop body once more than `y`. It
      fits the five-bit immediate of the `set` instruction. */
  function RepeatCounter(c: MonochromeColor): (y: nat)
    ensures y + 1 == Expansion(c)
    ensures y < 32
  {
    RgbBpp / Bpp(c) - 1
  }

  /** Bits pushed by the generated program's loop for one pixel: `in x, bpp`
      runs, then `jmp y--, repeat` jumps back while `y` was nonzero. */
  function LoopBits(y: nat, bpp: nat): (bits: nat)
    ensures bits == (y + 1) * bpp
    decreases y
  {
    if y == 0 then bpp else bpp + LoopBits(y - 1, bpp)
  }

  /** Each input pixel becomes exactly one 12-bit RGB444 pixel, at every
      depth. */
  lemma PixelExpandsToTwelveBits(c: MonochromeColor)
    ensures LoopBits(RepeatCounter(c), Bpp(c)) == RgbBpp
  {
  }

  /** The fixed 1-bpp program of `expand_12times` loads the counter the
      generator computes for 1 bpp. */
  lemma Expand12TimesCounter()
    ensures RepeatCounter(Bpp1) == 11
    ensures Expansion(Bpp1) == 12
  {
  }

  /** Bits the expansion produces from `inputBytes` bytes of pixels. */
  function ProducedBits(inputBytes: nat, c: MonochromeColor): (bits: nat)
    ensures bits * Bpp(c) == inputBytes * 8 * RgbBpp
  {
    var pixels := inputBytes * PixelsPerByte(c);
    PixelExpandsToTwelveBits(c);
    var bits := pixels * LoopBits(RepeatCounter(c), Bpp(c));
    assert pixels * Bpp(c) == inputBytes * (PixelsPerByte(c) * Bpp(c));
    assert bits * Bpp(c) == RgbBpp * (pixels * Bpp(c));
    bits
  }

  /** A byte holds a whole number of pixels at every depth. */
  function PixelsPerByte(c: MonochromeColor): (p: nat)
    ensures p * Bpp(c) == 8
  {
    8 / Bpp(c)
  }

  /** Abstract register addresses of the PIO FIFOs the scenarios use. */
  datatype Fifos = Fifos(txf0: u32, rxf0: u32, txf1: u32, rxf1: u32)

  /** `test_with_pio_invert_twice`: a 32-byte buffer, inverted twice by two
      state machines. */
  const InvertSize: nat := 32

  /** Channel 3: receives state machine 1's output into the output buffer;
      starts at once and waits for its FIFO. */
  function InvertRx(f: Fifos, output: u32): (cfg: Config)
    ensures cfg.txCount * 4 == InvertSize
  {
    Config(Bits32, Source(f.rxf1, false), Destination(output, true), InvertSize as u32 / 4,
           Pio0Rx1, false, false, true)
  }

  /** Channel 2: forwards state machine 0's output to state machine 1. */
  function InvertForward(f: Fifos): (cfg: Config)
    ensures cfg.txCount * 4 == InvertSize
  {
    Config(Bits32, Source(f.rxf0, false), Destination(f.txf1, false), InvertSize as u32 / 4,
           Pio0Tx1, false, false, true)
  }

  /** Channel 1: feeds the input buffer to state machine 0; programmed with a
      null source and not started, its source comes from channel 0. */
  function InvertTx(f: Fifos): (cfg: Config)
    ensures cfg.txCount * 4 == InvertSize
  {
    Config(Bits32, Source(0, true), Destination(f.txf0, false), InvertSize as u32 / 4,
           Pio0Tx0, false, false, false)
  }

  /** Channel 0: copies one word, the input buffer's address held in memory
      at `cell`, into channel 1's read-address trigger alias. */
  function InvertConfigure(cell: u32, trigAlias: u32): (cfg: Config)
    ensures cfg.txCount == 1 && cfg.destination == Destination(trigAlias, false)
  {
    Config(Bits32, Source(cell, false), Destination(trigAlias, false), 1,
           Permanent, false, false, false)
  }

  /** The scenario's driver calls: channels 3, 2, 1 and 0 programmed in that
      order, channel 0 aimed at channel 1's trigger alias, then channel 0
      triggered. */
  function InvertTwiceStart(e: Engine, f: Fifos, output: u32, cell: u32): (r: Engine)
    requires Valid(e)
    ensures Valid(r) && r.aliases == e.aliases
  {
    var (e3, dma3) := New(e, InvertRx(f, output), 3);
    var (e2, dma2) := New(e3, InvertForward(f), 2);
    var (e1, dma1) := New(e2, InvertTx(f), 1);
    var (e0, dma0) := New(e1, InvertConfigure(cell, ReadTrigAddr(e1, dma1)), 0);
    Trigger(e0, dma0)
  }

  /** Channel states of the invert-twice scenario right after the trigger:
      the two receive-side channels wait, channel 1 is programmed but idle,
      channel 0 runs its one-word copy into channel 1's trigger alias. */
  lemma InvertTwiceStarted(e: Engine, f: Fifos, output: u32, cell: u32)
    requires Valid(e)
    requires forall k: ChannelId :: !e.regs[k].busy
    ensures var s := InvertTwiceStart(e, f, output, cell);
      && s.regs[3].busy && s.regs[3].remaining == 8
      && s.regs[2].busy && s.regs[2].remaining == 8
      && !s.regs[1].busy && s.regs[1].ctrl.en && s.regs[1].reload == 8
      && s.regs[0].busy && s.regs[0].remaining == 1
      && s.regs[0].ctrl.dataSize == 2 && s.regs[0].ctrl.chainTo == 0
      && LastWriteTarget(s.regs[0], 4) == s.aliases[1]
  {
    var (e3, dma3) := New(e, InvertRx(f, output), 3);
    var (e2, dma2) := New(e3, InvertForward(f), 2);
    var (e1, dma1) := New(e2, InvertTx(f), 1);
    var (e0, dma0) := New(e1, InvertConfigure(cell, ReadTrigAddr(e1, dma1)), 0);
    assert e0.regs[0].writeAddr == e.aliases[1];
  }

  /** Completing channel 0 in the invert-twice scenario points channel 1 at
      the word it copied, the input buffer's address, and starts channel 1
      with its whole transfer count; channel 0 is then done. */
  lemma InvertTwiceWiring(e: Engine, f: Fifos, output: u32, cell: u32, input: u32)
    requires Valid(e)
    requires forall k: ChannelId :: !e.regs[k].busy
    ensures var s := InvertTwiceStart(e, f, output, cell);
      var d := Complete(s, 0, input);
      && d.regs[1].readAddr == input
      && d.regs[1].busy && d.regs[1].remaining == 8
      && !d.regs[0].busy && d.regs[0].remaining == 0
      && d.regs[2].busy && d.regs[3].busy
  {
    InvertTwiceStarted(e, f, output, cell);
    var s := InvertTwiceStart(e, f, output, cell);
    CompleteWritesAlias(s, 0, input, 1);
    CompleteFinishes(s, 0, input);
    CompleteKeepsOthersBusy(s, 0, input, 2);
    CompleteKeepsOthersBusy(s, 0, input, 3);
  }

  /** `test_with_pio_expand_12times`: four input bytes, each bit expanded
      twelve times. */
  const Expand12Size: nat := 4

  /** Transmit side of both expansion scenarios: the input buffer to state
      machine 0. */
  function ExpandTx(f: Fifos, input: u32, size: nat): (cfg: Config)
    requires size < 0x1_0000_0000
    ensures cfg.txCount * 4 <= size < cfg.txCount * 4 + 4
  {
    Config(Bits32, Source(input, true), Destination(f.txf0, false), size as u32 / 4,
           Pio0Tx0, false, false, false)
  }

  /** Receive side of `expand_12times`: `12 * SIZE / 4` words into the
      48-byte output buffer. */
  function Expand12Rx(f: Fifos, output: u32): (cfg: Config)
    ensures cfg.txCount * 4 == 12 * Expand12Size
  {
    Config(Bits32, Source(f.rxf0, false), Destination(output, true),
           (12 * Expand12Size as u32) / 4, Pio0Rx0, false, false, false)
  }

  /** `test_with_pio_expand_dynamic`: eight input bytes at a chosen depth. */
  const DynamicSize: nat := 8

  /** Receive side of `expand_dynamic`: `(12 / bpp) * SIZE / 4` words into
      the 96-byte output buffer. */
  function DynamicRx(f: Fifos, output: u32, c: MonochromeColor): (cfg: Config)
    ensures cfg.txCount * 4 == Expansion(c) * DynamicSize
  {
    Config(Bits32, Source(f.rxf0, false), Destination(output, true),
           (Expansion(c) as u32 * DynamicSize as u32) / 4, Pio0Rx0, false, false, false)
  }

  /** In `invert_twice` the receive channel fills the 32-byte output buffer
      exactly: one word out for every word in. */
  lemma InvertReceiveFits(f: Fifos, output: u32)
    ensures InvertRx(f, output).txCount * 4 == InvertSize
    ensures InvertRx(f, output).txCount == InvertTx(f).txCount
  {
  }

  /** In `expand_12times` the receive channel's 48 bytes are exactly the
      output buffer and exactly the bits the 1-bpp expansion produces from
      the four input bytes, so it neither stops early nor waits for words
      that never come. */
  lemma Expand12ReceiveFits(f: Fifos, input: u32, output: u32)
    ensures Expand12Rx(f, output).txCount * 4 == 12 * Expand12Size
    ensures Expand12Rx(f, output).txCount * 32 == ProducedBits(Expand12Size, Bpp1)
    ensures ExpandTx(f, input, Expand12Size).txCount * 4 == Expand12Size
  {
    PixelExpandsToTwelveBits(Bpp1);
  }

  /** In `expand_dynamic` the receive channel's bytes fit the 96-byte output
      buffer at every depth, filling it at 1 bpp, and are exactly the bits
      the expansion produces from the eight input bytes. */
  lemma DynamicReceiveFits(f: Fifos, input: u32, output: u32, c: MonochromeColor)
    ensures DynamicRx(f, output, c).txCount * 4 <= 12 * DynamicSize
    ensures c == Bpp1 ==> DynamicRx(f, output, c).txCount * 4 == 12 * DynamicSize
    ensures DynamicRx(f, output, c).txCount * 32 == ProducedBits(DynamicSize, c)
    ensures ExpandTx(f, input, DynamicSize).txCount * 4 == DynamicSize
  {
    PixelExpandsToTwelveBits(c);
  }

  /** Both expansion scenarios program two idle channels and trigger them
      one after the other: both end up running their whole transfers, the
      transmit side paced by state machine 0's TX FIFO and the receive side
      by its RX FIFO. */
  lemma ExpandStartsBoth(e: Engine, tx: Config, rx: Config)
    requires Valid(e)
    requires !e.regs[1].busy && !e.regs[2].busy
    requires tx.txReq == Pio0Tx0 && rx.txReq == Pio0Rx0
    ensures var (e1, dma1) := New(e, tx, 1);
      var (e2, dma2) := New(e1, rx, 2);
      var s := Trigger(Trigger(e2, dma1), dma2);
      && s.regs[1].busy && s.regs[1].remaining == tx.txCount
      && s.regs[2].busy && s.regs[2].remaining == rx.txCount
      && s.regs[1].ctrl.treqSel == ReqCode(Pio0Tx0)
      && s.regs[2].ctrl.treqSel == ReqCode(Pio0Rx0)
  {
  }
}

=== FILE: lax_dma.dfy ===
/** The channel driver: a configuration value turned into one control word
    and an ordered register program, the handle's trigger, completion poll,
    wait, queries and drop. */
module LaxDma {
  import opened Types
  import opened Codes
  import opened Registers

  datatype Source = Source(address: u32, increment: bool)

  datatype Destination = Destination(address: u32, increment: bool)

  /** Everything one transfer needs; `start` asks for the channel to run as
      soon as it is programmed. */
  datatype Config = Config(
    wordSize: TxSize,
    source: Source,
    destination: Destination,
    txCount: u32,
    txReq: TxReq,
    byteSwap: bool,
    highPriority: bool,
    start: bool)

  /** A live handle: its own channel and the channel it chains to (itself
      when unchained). */
  datatype Handle = Handle(id: ChannelId, chain: ChannelId)

  /** The control-register fields read back as configuration values. */
  datatype ControlFields = ControlFields(
    wordSize: TxSize,
    incrRead: bool,
    incrWrite: bool,
    txReq: TxReq,
    byteSwap: bool,
    chainTo: nat,
    highPriority: bool,
    enabled: bool)

  /** Reads a control value back; `None` when a code field holds a value no
      configuration can produce. */
  function ReadControl(c: Ctrl): (r: Option<ControlFields>)
    ensures r.Some? <==> c.dataSize <= 2 && IsReqCode(c.treqSel)
  {
    match (SizeFromCode(c.dataSize), ReqFromByte(c.treqSel))
    case (Some(s), Some(q)) =>
      Some(ControlFields(s, c.incrRead, c.incrWrite, q, c.bswap, c.chainTo, c.highPriority, c.en))
    case _ => None
  }

  /** The control word `new_chained` writes. Every code fits its field. */
  function ControlFor(cfg: Config, chain: ChannelId): (c: Ctrl)
    ensures c.en
    ensures c.chainTo == chain
    ensures c.dataSize <= 2 && c.treqSel <= 63
  {
    Ctrl(
      SizeCode(cfg.wordSize),
      cfg.source.increment,
      cfg.destination.increment,
      ReqCode(cfg.txReq),
      cfg.byteSwap,
      chain,
      cfg.highPriority,
      true)
  }

  /** The control word carries every configuration field unchanged, names
      the chain channel and enables the channel. */
  lemma ControlRoundTrip(cfg: Config, chain: ChannelId)
    ensures ReadControl(ControlFor(cfg, chain)) == Some(ControlFields(
      cfg.wordSize, cfg.source.increment, cfg.destination.increment, cfg.txReq,
      cfg.byteSwap, chain, cfg.highPriority, true))
  {
    SizeCodeRoundTrip(cfg.wordSize);
    ReqRoundTrip(cfg.txReq);
  }

  /** The write that sets the destination: through the trigger alias, which
      also starts the channel, or through the plain write-address register. */
  function DestinationWrite(cfg: Config, id: ChannelId): (ev: Event)
    ensures ev.WriteAddrTrigWrite? <==> cfg.start
    ensures ev.WriteAddrWrite? <==> !cfg.start
    ensures Target(ev) == Some(id)
  {
    if cfg.start then WriteAddrTrigWrite(id, cfg.destination.address)
    else WriteAddrWrite(id, cfg.destination.address)
  }

  /** The register program of `new_chained`, in the order it is issued. */
  function DescriptorWrites(cfg: Config, id: ChannelId, chain: ChannelId): (evs: seq<Event>)
    // one barrier, before every register write
    ensures |evs| > 0 && evs[0] == Barrier
    ensures forall i :: 0 < i < |evs| ==> Target(evs[i]) == Some(id)
    // the control word is written once, right after a control reset
    ensures forall i :: 0 <= i < |evs| && evs[i].CtrlWrite? ==>
      0 < i && evs[i - 1] == CtrlReset(id) && evs[i].value == ControlFor(cfg, chain)
    ensures CtrlWrite(id, ControlFor(cfg, chain)) in evs
    ensures forall i, j :: 0 <= i < j < |evs| && evs[i].CtrlWrite? ==> !evs[j].CtrlWrite?
    // the source address and the count are always written
    ensures ReadAddrWrite(id, cfg.source.address) in evs
    ensures TransCountWrite(id, cfg.txCount) in evs
    // the destination is written last, to the alias that starts the channel iff `start`
    ensures evs[|evs| - 1] == DestinationWrite(cfg, id)
    ensures WriteAddrTrigWrite(id, cfg.destination.address) in evs <==> cfg.start
    ensures WriteAddrWrite(id, cfg.destination.address) in evs <==> !cfg.start
  {
    [ Barrier,
      CtrlReset(id),
      CtrlWrite(id, ControlFor(cfg, chain)),
      ReadAddrWrite(id, cfg.source.address),
      TransCountWrite(id, cfg.txCount),
      DestinationWrite(cfg, id) ]
  }

  /** Programs channel `id` from `cfg`, chained to channel `chain`. */
  function NewChained(e: Engine, cfg: Config, id: ChannelId, chain: ChannelId): (r: (Engine, Handle))
    requires Valid(e)
    ensures Valid(r.0) && r.0.aliases == e.aliases
    ensures r.1 == Handle(id, chain)
    ensures r.0.trace == e.trace + DescriptorWrites(cfg, id, chain)
    ensures r.0.regs[id].ctrl == ControlFor(cfg, chain)
    ensures r.0.regs[id].readAddr == cfg.source.address
    ensures r.0.regs[id].writeAddr == cfg.destination.address
    ensures r.0.regs[id].reload == cfg.txCount
    // the channel runs iff it was asked to start (or was already running)
    ensures r.0.regs[id].busy <==> cfg.start || e.regs[id].busy
    ensures cfg.start && !e.regs[id].busy ==> r.0.regs[id].remaining == cfg.txCount
    ensures !cfg.start ==> r.0.regs[id].remaining == e.regs[id].remaining
    ensures r.0.regs[id].readError == e.regs[id].readError
    ensures r.0.regs[id].writeError == e.regs[id].writeError
    ensures forall k: ChannelId :: k != id ==> r.0.regs[k] == e.regs[k]
  {
    DescriptorEffect(e, cfg, id, chain);
    (IssueAll(e, DescriptorWrites(cfg, id, chain)), Handle(id, chain))
  }

  /** What the descriptor program leaves in channel `id`'s registers, and
      that it touches no other channel. */
  lemma DescriptorEffect(e: Engine, cfg: Config, id: ChannelId, chain: ChannelId)
    requires Valid(e)
    ensures var r := IssueAll(e, DescriptorWrites(cfg, id, chain)).regs;
      && r[id].ctrl == ControlFor(cfg, chain)
      && r[id].readAddr == cfg.source.address
      && r[id].writeAddr == cfg.destination.address
      && r[id].reload == cfg.txCount
      && (r[id].busy <==> cfg.start || e.regs[id].busy)
      && (cfg.start && !e.regs[id].busy ==> r[id].remaining == cfg.txCount)
      && (!cfg.start ==> r[id].remaining == e.regs[id].remaining)
      && r[id].readError == e.regs[id].readError
      && r[id].writeError == e.regs[id].writeError
      && (forall k: ChannelId :: k != id ==> r[k] == e.regs[k])
  {
    IssueAllDescriptor(e, cfg, id, chain);
    var e1 := Issue(e, Barrier);
    var e2 := Issue(e1, CtrlReset(id));
    var e3 := Issue(e2, CtrlWrite(id, ControlFor(cfg, chain)));
    var e4 := Issue(e3, ReadAddrWrite(id, cfg.source.address));
    var e5 := Issue(e4, TransCountWrite(id, cfg.txCount));
    var e6 := Issue(e5, DestinationWrite(cfg, id));
    assert e5.regs[id] == e.regs[id].(ctrl := ControlFor(cfg, chain),
      readAddr := cfg.source.address, reload := cfg.txCount);
    assert forall k: ChannelId :: k != id ==> e5.regs[k] == e.regs[k];
  }

  /** Issuing the descriptor program has the same effect as applying its six
      writes one after the other. */
  lemma IssueAllDescriptor(e: Engine, cfg: Config, id: ChannelId, chain: ChannelId)
    requires Valid(e)
    ensures IssueAll(e, DescriptorWrites(cfg, id, chain)).regs ==
      var e1 := Issue(e, Barrier);
      var e2 := Issue(e1, CtrlReset(id));
      var e3 := Issue(e2, CtrlWrite(id, ControlFor(cfg, chain)));
      var e4 := Issue(e3, ReadAddrWrite(id, cfg.source.address));
      var e5 := Issue(e4, TransCountWrite(id, cfg.txCount));
      Issue(e5, DestinationWrite(cfg, id)).regs
  {
    var evs := DescriptorWrites(cfg, id, chain);
    var e1 := Issue(e, evs[0]);
    var e2 := Issue(e1, evs[1]);
    var e3 := Issue(e2, evs[2]);
    var e4 := Issue(e3, evs[3]);
    var e5 := Issue(e4, evs[4]);
    assert IssueAll(e, evs) == IssueAll(e1, evs[1..]);
    assert IssueAll(e1, evs[1..]) == IssueAll(e2, evs[2..]);
    assert IssueAll(e2, evs[2..]) == IssueAll(e3, evs[3..]);
    assert IssueAll(e3, evs[3..]) == IssueAll(e4, evs[4..]);
    assert IssueAll(e4, evs[4..]) == IssueAll(e5, evs[5..]);
    assert IssueAll(e5, evs[5..]) == IssueAll(Issue(e5, evs[5]), evs[6..]);
  }

  /** Programs channel `id` from `cfg` without chaining: the channel names
      itself as its chain target. */
  function New(e: Engine, cfg: Config, id: ChannelId): (r: (Engine, Handle))
    requires Valid(e)
    ensures r == NewChained(e, cfg, id, id)
    ensures r.1.chain == r.1.id == id
    ensures r.0.regs[id].ctrl.chainTo == id
  {
    NewChained(e, cfg, id, id)
  }

  /** The multi-channel trigger mask of a handle: the bits of its own
      channel and of its chain channel. */
  function TriggerMask(id: ChannelId, chain: ChannelId): (m: bv32)
    ensures forall k: nat :: k < 32 ==> (MaskHas(m, k) <==> k == id || k == chain)
    ensures id == chain ==> m == 1 << id
  {
    var m: bv32 := (1 << id) | (1 << chain);
    forall k: nat | k < 32
      ensures MaskHas(m, k) <==> k == id || k == chain
    {
      MaskBit(id, chain, k);
    }
    m
  }

  /** Bit `k` of the two-bit mask is set iff `k` is one of the two bits. */
  lemma MaskBit(id: ChannelId, chain: ChannelId, k: nat)
    requires k < 32
    ensures MaskHas((1 << id) | (1 << chain), k) <==> k == id || k == chain
  {
    OrBit(1 << id, 1 << chain, k);
    SingleBit(id, k);
    SingleBit(chain, k);
  }

  lemma OrBit(a: bv32, b: bv32, k: nat)
    requires k < 32
    ensures MaskHas(a | b, k) <==> MaskHas(a, k) || MaskHas(b, k)
  {
    var bit: bv32 := 1 << k;
    assert (a | b) & bit == (a & bit) | (b & bit);
  }

  lemma SingleBit(id: ChannelId, k: nat)
    requires k < 32
    ensures MaskHas(1 << id, k) <==> k == id
  {
  }

  /** Starts the channel and its chain channel with one write to the
      multi-channel trigger register. */
  function Trigger(e: Engine, h: Handle): (e': Engine)
    requires Valid(e)
    ensures Valid(e') && e'.aliases == e.aliases
    ensures e'.trace == e.trace + [MultiChanTrigger(TriggerMask(h.id, h.chain))]
    ensures forall k: ChannelId ::
      e'.regs[k] == (if k == h.id || k == h.chain then Fire(e.regs[k]) else e.regs[k])
    ensures e.regs[h.id].ctrl.en ==> e'.regs[h.id].busy
  {
    Issue(e, MultiChanTrigger(TriggerMask(h.id, h.chain)))
  }

  /** The channel's busy flag is clear. */
  predicate IsDone(e: Engine, h: Handle)
    requires Valid(e)
  {
    !e.regs[h.id].busy
  }

  function ReadError(e: Engine, h: Handle): bool
    requires Valid(e)
  {
    e.regs[h.id].readError
  }

  function WriteError(e: Engine, h: Handle): bool
    requires Valid(e)
  {
    e.regs[h.id].writeError
  }

  function LastReadAddr(e: Engine, h: Handle): u32
    requires Valid(e)
  {
    e.regs[h.id].readAddr
  }

  function LastWriteAddr(e: Engine, h: Handle): u32
    requires Valid(e)
  {
    e.regs[h.id].writeAddr
  }

  function TxCountRemaining(e: Engine, h: Handle): u32
    requires Valid(e)
  {
    e.regs[h.id].remaining
  }

  /** The address of the channel's read-address trigger alias, which another
      channel may use as its destination. */
  function ReadTrigAddr(e: Engine, h: Handle): (a: u32)
    requires Valid(e)
    ensures AliasOwner(e, a) == Some(h.id)
  {
    e.aliases[h.id]
  }

  /** Once a channel has completed, the queries describe the finished
      transfer: done, nothing remaining, the read address past every word
      read when it increments, and the latched error flags as they were. */
  lemma QueriesAfterCompletion(e: Engine, h: Handle, word: u32)
    requires Valid(e)
    requires e.regs[h.id].busy
    requires e.regs[h.id].ctrl.dataSize <= 2
    requires AliasHit(e, h.id) != Some(h.id)
    ensures var e' := Complete(e, h.id, word);
      && IsDone(e', h)
      && TxCountRemaining(e', h) == 0
      && (e.regs[h.id].ctrl.incrRead ==>
            LastReadAddr(e', h) ==
              AddWrap(LastReadAddr(e, h), TxCountRemaining(e, h) * CodeBytes(e.regs[h.id].ctrl.dataSize)))
      && ReadError(e', h) == ReadError(e, h)
      && WriteError(e', h) == WriteError(e, h)
  {
    CompleteFinishes(e, h.id, word);
  }

  /** A state the spin loop may observe: the hardware, running concurrently,
      changes registers (see `Complete` and the triggers it causes) but never
      the CPU's trace or the alias addresses. */
  ghost predicate HardwareOnly(e: Engine, x: Engine)
  {
    Valid(x) && x.aliases == e.aliases && x.trace == e.trace
  }

  /** What poll `i` of the spin loop sees: the engine at the call, then the
      states the hardware leaves before each later poll. */
  function Poll(e: Engine, later: seq<Engine>, i: nat): (x: Engine)
    requires Valid(e)
    requires forall k :: 0 <= k < |later| ==> HardwareOnly(e, later[k])
    requires i <= |later|
    ensures Valid(x) && x.aliases == e.aliases && x.trace == e.trace
  {
    if i == 0 then e else assert HardwareOnly(e, later[i - 1]); later[i - 1]
  }

  /** Poll `i` is the first to see channel `c` idle. */
  ghost predicate FirstIdlePoll(e: Engine, later: seq<Engine>, c: ChannelId, i: nat)
    requires Valid(e)
    requires forall k :: 0 <= k < |later| ==> HardwareOnly(e, later[k])
  {
    && i <= |later|
    && !Poll(e, later, i).regs[c].busy
    && forall j :: 0 <= j < i ==> Poll(e, later, j).regs[c].busy
  }

  /** `wait`: the spin loop polls the busy flag until it is clear, then
      issues a barrier. The observed states are a parameter; `returned` says
      whether one of them showed the channel idle. Nothing is claimed about
      runs after which the loop still spins: there is no timeout. */
  method Wait(e: Engine, h: Handle, later: seq<Engine>) returns (e': Engine, returned: bool)
    requires Valid(e)
    requires forall k :: 0 <= k < |later| ==> HardwareOnly(e, later[k])
    ensures Valid(e') && e'.aliases == e.aliases
    ensures returned <==> exists i :: 0 <= i <= |later| && !Poll(e, later, i).regs[h.id].busy
    ensures returned ==> !e'.regs[h.id].busy && e'.trace == e.trace + [Barrier]
    ensures returned ==> exists i :: FirstIdlePoll(e, later, h.id, i) && e'.regs == Poll(e, later, i).regs
    ensures !returned ==> e'.trace == e.trace
  {
    var cur := e;
    var n := 0;
    while n < |later| && cur.regs[h.id].busy
      invariant 0 <= n <= |later|
      invariant cur == Poll(e, later, n)
      invariant forall j :: 0 <= j < n ==> Poll(e, later, j).regs[h.id].busy
    {
      cur := later[n];
      n := n + 1;
    }
    returned := !cur.regs[h.id].busy;
    if returned {
      e' := Issue(cur, Barrier);
      assert FirstIdlePoll(e, later, h.id, n);
    } else {
      e' := cur;
    }
  }

  /** Dropping a handle waits for the channel and then resets its control
      register. The engine keeps running between the last poll and the
      reset: `window` is the register file the reset meets. A chain partner
      or a write to this channel's trigger alias may have restarted the
      channel in between; the reset then clears `en` on a running channel,
      which pauses it with `busy` still set. */
  method Drop(e: Engine, h: Handle, later: seq<Engine>, window: seq<ChannelRegs>)
    returns (e': Engine, returned: bool)
    requires Valid(e)
    requires forall k :: 0 <= k < |later| ==> HardwareOnly(e, later[k])
    requires |window| == NumChannels
    ensures Valid(e') && e'.aliases == e.aliases
    ensures returned <==> exists i :: 0 <= i <= |later| && !Poll(e, later, i).regs[h.id].busy
    ensures returned ==> e'.regs[h.id].ctrl == ResetCtrl && !e'.regs[h.id].ctrl.en
    ensures returned ==> e'.trace == e.trace + [Barrier, CtrlReset(h.id)]
    // the reset changes only this channel's control register of the window
    ensures returned ==> e'.regs == window[h.id := window[h.id].(ctrl := ResetCtrl)]
    // the channel ends busy exactly when the hardware restarted it in the window
    ensures returned ==> (e'.regs[h.id].busy <==> window[h.id].busy)
    // with no hardware step in the window, the channel ends idle and the
    // other registers are those the first idle poll saw
    ensures returned ==> exists i ::
      (FirstIdlePoll(e, later, h.id, i) &&
       (window == Poll(e, later, i).regs ==>
          !e'.regs[h.id].busy &&
          e'.regs == Poll(e, later, i).regs[h.id := Poll(e, later, i).regs[h.id].(ctrl := ResetCtrl)]))
    ensures !returned ==> e'.trace == e.trace
  {
    var w;
    w, returned := Wait(e, h, later);
    if returned {
      e' := Issue(w.(regs := window), CtrlReset(h.id));
    } else {
      e' := w;
    }
  }

  /** A dropped channel ignores triggers: it stays idle, so it neither
      transfers nor starts a chain target. */
  lemma DroppedChannelStaysIdle(e: Engine, h: Handle, other: Handle)
    requires Valid(e)
    requires e.regs[h.id].ctrl == ResetCtrl && !e.regs[h.id].busy
    ensures !Trigger(e, other).regs[h.id].busy
    ensures Trigger(e, other).regs[h.id] == e.regs[h.id]
  {
  }
}

=== FILE: registers.dfy ===
/** An abstract register window of the DMA engine: one record per channel,
    the engine-wide multi-channel trigger register, and the trace of the
    CPU's register writes and ordering barriers. Raw addresses and bit
    positions are replaced by fields; the hardware's own progress is the
    explicit step `Complete`. */
module Registers {
  import opened Types
  import opened Codes

  type Bits2 = x: nat | x < 4
  type Bits4 = x: nat | x < 16
  type Bits6 = x: nat | x < 64

  /** The writable fields of a channel's control register, each as wide as
      its hardware field. */
  datatype Ctrl = Ctrl(
    dataSize: Bits2,
    incrRead: bool,
    incrWrite: bool,
    treqSel: Bits6,
    bswap: bool,
    chainTo: Bits4,
    highPriority: bool,
    en: bool)

  /** The control register's reset value: every field zero, channel disabled. */
  const ResetCtrl: Ctrl := Ctrl(0, false, false, 0, false, 0, false, false)

  /** One channel's registers. `busy` and the two error flags are read-only
      status bits set by the hardware; `reload` is the transfer count last
      written by software and `remaining` the live counter that a trigger
      loads from it. */
  datatype ChannelRegs = ChannelRegs(
    ctrl: Ctrl,
    busy: bool,
    readError: bool,
    writeError: bool,
    readAddr: u32,
    writeAddr: u32,
    reload: u32,
    remaining: u32)

  /** What the CPU does to the engine: an ordering barrier (`dsb` plus a
      compiler fence) or one register write. */
  datatype Event =
    | Barrier
    | CtrlReset(ch: ChannelId)
    | CtrlWrite(ch: ChannelId, value: Ctrl)
    | ReadAddrWrite(ch: ChannelId, addr: u32)
    | TransCountWrite(ch: ChannelId, count: u32)
    | WriteAddrWrite(ch: ChannelId, addr: u32)
    | WriteAddrTrigWrite(ch: ChannelId, addr: u32)
    | ReadAddrTrigWrite(ch: ChannelId, addr: u32)
    | MultiChanTrigger(mask: bv32)

  /** The engine: the register file, the address of each channel's
      read-address trigger alias, and the CPU's trace so far. */
  datatype Engine = Engine(regs: seq<ChannelRegs>, aliases: seq<u32>, trace: seq<Event>)

  ghost predicate Valid(e: Engine)
  {
    && |e.regs| == NumChannels
    && |e.aliases| == NumChannels
    && forall i, j :: 0 <= i < j < |e.aliases| ==> e.aliases[i] != e.aliases[j]
  }

  /** Bit `k` of a 32-bit multi-channel trigger mask is set. */
  predicate MaskHas(mask: bv32, k: nat)
    requires k < 32
  {
    mask & (1 << k) != 0
  }

  /** A trigger reaching one channel: an enabled idle channel becomes busy
      and reloads its live counter; a disabled or busy channel ignores it. */
  function Fire(r: ChannelRegs): (r': ChannelRegs)
    ensures r'.busy <==> r.busy || r.ctrl.en
    ensures !r.busy && r.ctrl.en ==> r'.remaining == r.reload
    ensures r'.(busy := r.busy, remaining := r.remaining) == r
    ensures r.busy || !r.ctrl.en ==> r' == r
  {
    if r.ctrl.en && !r.busy then r.(busy := true, remaining := r.reload) else r
  }

  /** The effect of one event on the register file. */
  function Effect(regs: seq<ChannelRegs>, ev: Event): (regs': seq<ChannelRegs>)
    requires |regs| == NumChannels
    ensures |regs'| == NumChannels
    // a single-channel write leaves every other channel as it was
    ensures !ev.MultiChanTrigger? ==>
      forall k: ChannelId :: Target(ev) != Some(k) ==> regs'[k] == regs[k]
    // the CPU never changes a latched error flag: the control reset writes
    // zeros, and a zero leaves the write-one-to-clear bits alone
    ensures forall k: ChannelId ::
      regs'[k].readError == regs[k].readError && regs'[k].writeError == regs[k].writeError
  {
    match ev
    case Barrier => regs
    case MultiChanTrigger(m) => FireMasked(regs, m)
    case _ =>
      var c := Target(ev).value;
      regs[c := Write(regs[c], ev)]
  }

  /** The multi-channel trigger: every channel whose bit is set in `mask`
      is triggered, and no error flag changes. */
  function FireMasked(regs: seq<ChannelRegs>, mask: bv32): (regs': seq<ChannelRegs>)
    requires |regs| == NumChannels
    ensures |regs'| == NumChannels
    ensures forall k: ChannelId ::
      regs'[k] == if MaskHas(mask, k) then Fire(regs[k]) else regs[k]
    ensures forall k: ChannelId ::
      regs'[k].readError == regs[k].readError && regs'[k].writeError == regs[k].writeError
  {
    seq(NumChannels, k requires 0 <= k < NumChannels =>
      if MaskHas(mask, k) then Fire(regs[k]) else regs[k])
  }

  /** A single-channel write applied to that channel's registers. */
  function Write(r: ChannelRegs, ev: Event): (r': ChannelRegs)
    requires Target(ev).Some?
    ensures r'.readError == r.readError && r'.writeError == r.writeError
  {
    match ev
    case CtrlReset(_) => r.(ctrl := ResetCtrl)
    case CtrlWrite(_, v) => r.(ctrl := v)
    case ReadAddrWrite(_, a) => r.(readAddr := a)
    case TransCountWrite(_, n) => r.(reload := n)
    case WriteAddrWrite(_, a) => r.(writeAddr := a)
    case WriteAddrTrigWrite(_, a) => Fire(r.(writeAddr := a))
    case ReadAddrTrigWrite(_, a) => Fire(r.(readAddr := a))
  }

  /** The channel an event writes to, if it writes to a single channel. */
  function Target(ev: Event): Option<ChannelId>
  {
    match ev
    case Barrier => None
    case MultiChanTrigger(_) => None
    case CtrlReset(c) => Some(c)
    case CtrlWrite(c, _) => Some(c)
    case ReadAddrWrite(c, _) => Some(c)
    case TransCountWrite(c, _) => Some(c)
    case WriteAddrWrite(c, _) => Some(c)
    case WriteAddrTrigWrite(c, _) => Some(c)
    case ReadAddrTrigWrite(c, _) => Some(c)
  }

  /** The CPU issues one event: its effect applies and it joins the trace. */
  function Issue(e: Engine, ev: Event): (e': Engine)
    requires Valid(e)
    ensures Valid(e')
    ensures e'.aliases == e.aliases
    ensures e'.trace == e.trace + [ev]
    ensures ev.Barrier? ==> e'.regs == e.regs
  {
    e.(regs := Effect(e.regs, ev), trace := e.trace + [ev])
  }

  /** The CPU issues a sequence of events in order. */
  function IssueAll(e: Engine, evs: seq<Event>): (e': Engine)
    requires Valid(e)
    ensures Valid(e')
    ensures e'.aliases == e.aliases
    ensures e'.trace == e.trace + evs
    decreases |evs|
  {
    if |evs| == 0 then e
    else IssueAll(Issue(e, evs[0]), evs[1..])
  }

  /** The channel whose read-address trigger alias is at `addr`, if any. */
  function AliasOwner(e: Engine, addr: u32): (r: Option<ChannelId>)
    requires Valid(e)
    ensures r.Some? ==> e.aliases[r.value] == addr
    ensures r.None? ==> forall k: ChannelId :: e.aliases[k] != addr
  {
    AliasOwnerFrom(e, addr, 0)
  }

  function AliasOwnerFrom(e: Engine, addr: u32, from: nat): (r: Option<ChannelId>)
    requires Valid(e)
    requires from <= NumChannels
    ensures r.Some? ==> from <= r.value && e.aliases[r.value] == addr
    ensures r.None? ==> forall k: ChannelId :: from <= k ==> e.aliases[k] != addr
    decreases NumChannels - from
  {
    if from == NumChannels then None
    else if e.aliases[from] == addr then Some(from)
    else AliasOwnerFrom(e, addr, from + 1)
  }

  /** Address of the channel's last write: its write address, advanced by
      all but the last transfer when the write address increments. Only
      meaningful when the run moves at least one word. */
  function LastWriteTarget(r: ChannelRegs, w: nat): u32
  {
    if r.ctrl.incrWrite && r.remaining > 0 then AddWrap(r.writeAddr, (r.remaining - 1) * w)
    else r.writeAddr
  }

  /** The channel whose read-address trigger alias the busy channel `c`'s
      last write hits; `None` when the run moves no word at all. */
  function AliasHit(e: Engine, c: ChannelId): (r: Option<ChannelId>)
    requires Valid(e)
    requires e.regs[c].ctrl.dataSize <= 2
    ensures e.regs[c].remaining == 0 ==> r.None?
    ensures forall k: ChannelId :: r == Some(k) <==>
      e.regs[c].remaining > 0 &&
      e.aliases[k] == LastWriteTarget(e.regs[c], CodeBytes(e.regs[c].ctrl.dataSize))
  {
    if e.regs[c].remaining == 0 then None
    else AliasOwner(e, LastWriteTarget(e.regs[c], CodeBytes(e.regs[c].ctrl.dataSize)))
  }

  /** The hardware finishes the busy channel `c`. `word` is the last word the
      channel read (memory contents are not part of the engine model). The
      channel goes idle with a zero live counter and its addresses advanced
      past the words it moved; when it moved at least one word and its last
      write lands on another channel's read-address trigger alias, that
      channel's read address becomes `word` and that channel is triggered;
      then the chain target is triggered unless the channel names itself. */
  function Complete(e: Engine, c: ChannelId, word: u32): (e': Engine)
    requires Valid(e)
    requires e.regs[c].busy
    requires e.regs[c].ctrl.dataSize <= 2
    ensures Valid(e')
    ensures e'.aliases == e.aliases && e'.trace == e.trace
    // only the channel itself, the owner of the alias its last write hit and
    // its chain target can change
    ensures forall k: ChannelId ::
      k != c && k != e.regs[c].ctrl.chainTo && AliasHit(e, c) != Some(k)
      ==> e'.regs[k] == e.regs[k]
  {
    var r := e.regs[c];
    var w := CodeBytes(r.ctrl.dataSize);
    var done := r.(
      busy := false,
      remaining := 0,
      readAddr := if r.ctrl.incrRead then AddWrap(r.readAddr, r.remaining * w) else r.readAddr,
      writeAddr := if r.ctrl.incrWrite then AddWrap(r.writeAddr, r.remaining * w) else r.writeAddr);
    var regs1 := e.regs[c := done];
    var regs2 :=
      match AliasHit(e, c)
      case Some(k) => regs1[k := Fire(regs1[k].(readAddr := word))]
      case None => regs1;
    var regs3 :=
      if r.ctrl.chainTo != c && r.ctrl.chainTo < NumChannels
      then regs2[r.ctrl.chainTo := Fire(regs2[r.ctrl.chainTo])]
      else regs2;
    e.(regs := regs3)
  }

  /** The completed channel is idle with nothing left to transfer; a
      read address that increments has moved past every word read. */
  lemma CompleteFinishes(e: Engine, c: ChannelId, word: u32)
    requires Valid(e)
    requires e.regs[c].busy
    requires e.regs[c].ctrl.dataSize <= 2
    requires AliasHit(e, c) != Some(c)
    ensures var r := Complete(e, c, word).regs[c];
      && !r.busy
      && r.remaining == 0
      && r.ctrl == e.regs[c].ctrl
      && r.reload == e.regs[c].reload
      && (e.regs[c].ctrl.incrRead ==>
            r.readAddr == AddWrap(e.regs[c].readAddr, e.regs[c].remaining * CodeBytes(e.regs[c].ctrl.dataSize)))
      && (!e.regs[c].ctrl.incrRead ==> r.readAddr == e.regs[c].readAddr)
  {
  }

  /** Completing a channel that names another enabled channel as its chain
      target leaves the target busy: chained channels keep restarting each
      other without software. */
  lemma CompleteStartsChain(e: Engine, c: ChannelId, word: u32)
    requires Valid(e)
    requires e.regs[c].busy
    requires e.regs[c].ctrl.dataSize <= 2
    requires e.regs[c].ctrl.chainTo != c && e.regs[c].ctrl.chainTo < NumChannels
    requires e.regs[e.regs[c].ctrl.chainTo].ctrl.en
    ensures Complete(e, c, word).regs[e.regs[c].ctrl.chainTo].busy
  {
  }

  /** Completing one channel stops no other channel: the hardware only
      ever sets the busy flag of the channels it triggers. */
  lemma CompleteKeepsOthersBusy(e: Engine, c: ChannelId, word: u32, k: ChannelId)
    requires Valid(e)
    requires e.regs[c].busy
    requires e.regs[c].ctrl.dataSize <= 2
    requires k != c && e.regs[k].busy
    ensures Complete(e, c, word).regs[k].busy
  {
  }

  /** When the completed channel's last write lands on channel `k`'s
      read-address trigger alias, `k` now reads from `word` and is busy if it
      is enabled. */
  lemma CompleteWritesAlias(e: Engine, c: ChannelId, word: u32, k: ChannelId)
    requires Valid(e)
    requires e.regs[c].busy
    requires e.regs[c].ctrl.dataSize <= 2
    requires k != c
    requires e.regs[c].remaining > 0
    requires LastWriteTarget(e.regs[c], CodeBytes(e.regs[c].ctrl.dataSize)) == e.aliases[k]
    ensures Complete(e, c, word).regs[k].readAddr == word
    ensures Complete(e, c, word).regs[k].busy <==> e.regs[k].busy || e.regs[k].ctrl.en
    ensures !e.regs[k].busy && e.regs[k].ctrl.en ==>
      Complete(e, c, word).regs[k].remaining == e.regs[k].reload
  {
    var o := AliasOwner(e, e.aliases[k]);
    assert o == Some(k);
  }

  /** A run with nothing left to move writes no word, so completing it
      triggers no alias owner: an unchained channel changes only itself. */
  lemma CompleteZeroCountWritesNothing(e: Engine, c: ChannelId, word: u32, k: ChannelId)
    requires Valid(e)
    requires e.regs[c].busy
    requires e.regs[c].ctrl.dataSize <= 2
    requires e.regs[c].remaining == 0
    requires e.regs[c].ctrl.chainTo == c
    requires k != c
    ensures Complete(e, c, word).regs[k] == e.regs[k]
  {
  }
}

=== FILE: transfer.dfy ===
/** Reference semantics of one channel run over two byte buffers: `count`
    transfers of one word each, read at the source offset and written at the
    destination offset, each offset advancing by the word width when its
    side increments and staying at the buffer start otherwise; with byte
    swap on, the bytes of each word are reversed on the way. */
module TransferSemantics {
  import opened Types
  import opened Codes

  /** Byte offset of transfer `i` on one side. */
  function Offset(incr: bool, i: nat, w: nat): nat
  {
    if incr then i * w else 0
  }

  /** Number of bytes one side touches over `n` transfers. */
  function Span(incr: bool, n: nat, w: nat): (s: nat)
    ensures n > 0 ==> s >= w
    ensures incr ==> s == n * w
  {
    if n == 0 then 0 else Offset(incr, n - 1, w) + w
  }

  /** Both sides of `n` transfers stay inside their buffers. */
  predicate InBounds(srcLen: nat, dstLen: nat, size: TxSize, incrRead: bool, incrWrite: bool, n: nat)
  {
    Span(incrRead, n, WordBytes(size)) <= srcLen && Span(incrWrite, n, WordBytes(size)) <= dstLen
  }

  lemma InBoundsFewer(srcLen: nat, dstLen: nat, size: TxSize, incrRead: bool, incrWrite: bool, n: nat)
    requires n > 0
    requires InBounds(srcLen, dstLen, size, incrRead, incrWrite, n)
    ensures InBounds(srcLen, dstLen, size, incrRead, incrWrite, n - 1)
  {
  }

  function Reverse(s: seq<u8>): (r: seq<u8>)
    ensures |r| == |s|
    ensures forall i :: 0 <= i < |s| ==> r[i] == s[|s| - 1 - i]
  {
    if |s| == 0 then [] else Reverse(s[1..]) + [s[0]]
  }

  /** The word read at byte offset `off`, byte-reversed when `bswap` is set. */
  function Fetch(src: seq<u8>, off: nat, w: nat, bswap: bool): (word: seq<u8>)
    requires off + w <= |src|
    ensures |word| == w
    ensures forall b :: 0 <= b < w ==> word[b] == src[off + (if bswap then w - 1 - b else b)]
  {
    if bswap then Reverse(src[off..off + w]) else src[off..off + w]
  }

  /** The buffer after writing `word` at byte offset `off`. */
  function Store(dst: seq<u8>, off: nat, word: seq<u8>): (r: seq<u8>)
    requires off + |word| <= |dst|
    ensures |r| == |dst|
    ensures forall j :: 0 <= j < |dst| ==>
      r[j] == (if off <= j < off + |word| then word[j - off] else dst[j])
  {
    dst[..off] + word + dst[off + |word|..]
  }

  /** The destination buffer after the first `n` transfers. */
  function Moved(src: seq<u8>, dst: seq<u8>, size: TxSize, incrRead: bool, incrWrite: bool,
                 bswap: bool, n: nat): (r: seq<u8>)
    requires InBounds(|src|, |dst|, size, incrRead, incrWrite, n)
    ensures |r| == |dst|
    decreases n
  {
    if n == 0 then dst
    else
      InBoundsFewer(|src|, |dst|, size, incrRead, incrWrite, n);
      var w := WordBytes(size);
      Store(Moved(src, dst, size, incrRead, incrWrite, bswap, n - 1),
            Offset(incrWrite, n - 1, w),
            Fetch(src, Offset(incrRead, n - 1, w), w, bswap))
  }

  /** One run of `count` transfers; `None` when it would reach past either
      buffer, which the model leaves undescribed (the driver does not check). */
  function Transfer(src: seq<u8>, dst: seq<u8>, size: TxSize, incrRead: bool, incrWrite: bool,
                    bswap: bool, count: nat): (r: Option<seq<u8>>)
    ensures r.Some? <==> InBounds(|src|, |dst|, size, incrRead, incrWrite, count)
    ensures r.Some? ==> |r.value| == |dst|
    ensures count == 0 && r.Some? ==> r.value == dst
  {
    if InBounds(|src|, |dst|, size, incrRead, incrWrite, count)
    then Some(Moved(src, dst, size, incrRead, incrWrite, bswap, count))
    else None
  }

  /** The words read by the first `n` transfers, in order. */
  function Gathered(src: seq<u8>, size: TxSize, incrRead: bool, bswap: bool, n: nat): (g: seq<u8>)
    requires Span(incrRead, n, WordBytes(size)) <= |src|
    ensures |g| == n * WordBytes(size)
  {
    if n == 0 then []
    else
      var w := WordBytes(size);
      NextWordEnd(n, w);
      Gathered(src, size, incrRead, bswap, n - 1) + Fetch(src, Offset(incrRead, n - 1, w), w, bswap)
  }

  lemma NextWordEnd(n: nat, w: nat)
    requires n > 0
    ensures (n - 1) * w + w == n * w
  {
  }

  lemma LaterWord(i: nat, n: nat, w: nat, b: nat)
    requires i < n && b < w
    ensures i * w + b < n * w
    ensures i < n - 1 ==> i * w + b < (n - 1) * w
  {
    assert (i + 1) * w <= n * w;
    if i < n - 1 {
      assert (i + 1) * w <= (n - 1) * w;
    }
  }

  /** Writing a word right after a prefix replaces the head of the rest. */
  lemma StoreAfterPrefix(p: seq<u8>, rest: seq<u8>, word: seq<u8>)
    requires |word| <= |rest|
    ensures Store(p + rest, |p|, word) == p + word + rest[|word|..]
  {
  }

  /** When the destination increments, the destination starts with the
      words read, in order, and the rest of it is untouched. */
  lemma {:induction false} IncrementingWriteGathers(src: seq<u8>, dst: seq<u8>, size: TxSize,
                                                    incrRead: bool, bswap: bool, n: nat)
    requires InBounds(|src|, |dst|, size, incrRead, true, n)
    ensures n * WordBytes(size) <= |dst|
    ensures Moved(src, dst, size, incrRead, true, bswap, n) ==
      Gathered(src, size, incrRead, bswap, n) + dst[n * WordBytes(size)..]
  {
    if n > 0 {
      var w := WordBytes(size);
      InBoundsFewer(|src|, |dst|, size, incrRead, true, n);
      IncrementingWriteGathers(src, dst, size, incrRead, bswap, n - 1);
      NextWordEnd(n, w);
      var g := Gathered(src, size, incrRead, bswap, n - 1);
      var word := Fetch(src, Offset(incrRead, n - 1, w), w, bswap);
      var rest := dst[(n - 1) * w..];
      StoreAfterPrefix(g, rest, word);
      assert rest[w..] == dst[n * w..];
    }
  }

  /** Without swap, an incrementing source is gathered unchanged. */
  lemma {:induction false} GatheredCopies(src: seq<u8>, size: TxSize, n: nat)
    requires n * WordBytes(size) <= |src|
    ensures Gathered(src, size, true, false, n) == src[..n * WordBytes(size)]
  {
    if n > 0 {
      var w := WordBytes(size);
      NextWordEnd(n, w);
      GatheredCopies(src, size, n - 1);
      assert src[..n * w] == src[..(n - 1) * w] + src[(n - 1) * w..n * w];
    }
  }

  /** With swap, byte `b` of gathered word `i` is byte `w - 1 - b` of source
      word `i`. */
  lemma {:induction false} GatheredSwaps(src: seq<u8>, size: TxSize, n: nat, i: nat, b: nat)
    requires n * WordBytes(size) <= |src|
    requires i < n && b < WordBytes(size)
    ensures i * WordBytes(size) + b < n * WordBytes(size)
    ensures i * WordBytes(size) + WordBytes(size) - 1 - b < |src|
    ensures Gathered(src, size, true, true, n)[i * WordBytes(size) + b] ==
      src[i * WordBytes(size) + WordBytes(size) - 1 - b]
  {
    var w := WordBytes(size);
    LaterWord(i, n, w, b);
    NextWordEnd(n, w);
    var g := Gathered(src, size, true, true, n - 1);
    var word := Fetch(src, Offset(true, n - 1, w), w, true);
    assert Gathered(src, size, true, true, n) == g + word;
    if i < n - 1 {
      GatheredSwaps(src, size, n - 1, i, b);
      assert (g + word)[i * w + b] == g[i * w + b];
    } else {
      assert i * w == |g|;
      assert (g + word)[i * w + b] == word[b];
    }
  }

  /** With a fixed source, every gathered word is the first source word. */
  lemma {:induction false} GatheredRepeats(src: seq<u8>, size: TxSize, bswap: bool, n: nat, i: nat, b: nat)
    requires WordBytes(size) <= |src|
    requires i < n && b < WordBytes(size)
    ensures i * WordBytes(size) + b < n * WordBytes(size)
    ensures Gathered(src, size, false, bswap, n)[i * WordBytes(size) + b] ==
      Fetch(src, 0, WordBytes(size), bswap)[b]
  {
    var w := WordBytes(size);
    LaterWord(i, n, w, b);
    NextWordEnd(n, w);
    if i < n - 1 {
      GatheredRepeats(src, size, bswap, n - 1, i, b);
    }
  }

  /** A plain copy: both sides incrementing, no swap, the whole buffer moved. */
  lemma CopyIsIdentity(src: seq<u8>, dst: seq<u8>, size: TxSize, count: nat)
    requires |src| == |dst| == count * WordBytes(size)
    ensures Transfer(src, dst, size, true, true, false, count) == Some(src)
  {
    assert InBounds(|src|, |dst|, size, true, true, count);
    IncrementingWriteGathers(src, dst, size, true, false, count);
    GatheredCopies(src, size, count);
    assert src[..count * WordBytes(size)] == src;
    assert dst[count * WordBytes(size)..] == [];
    assert Moved(src, dst, size, true, true, false, count) == src;
  }

  /** Byte swap reverses the bytes inside every word of the destination, and
      leaves the bytes past the last word untouched. */
  lemma SwapReversesWords(src: seq<u8>, dst: seq<u8>, size: TxSize, count: nat, i: nat, b: nat)
    requires InBounds(|src|, |dst|, size, true, true, count)
    requires i < count && b < WordBytes(size)
    ensures Transfer(src, dst, size, true, true, true, count).Some?
    ensures i * WordBytes(size) + b < |dst|
    ensures i * WordBytes(size) + WordBytes(size) - 1 - b < |src|
    ensures Transfer(src, dst, size, true, true, true, count).value[i * WordBytes(size) + b] ==
      src[i * WordBytes(size) + WordBytes(size) - 1 - b]
    ensures count * WordBytes(size) <= |dst|
    ensures Transfer(src, dst, size, true, true, true, count).value[count * WordBytes(size)..] ==
      dst[count * WordBytes(size)..]
  {
    IncrementingWriteGathers(src, dst, size, true, true, count);
    GatheredSwaps(src, size, count, i, b);
  }

  /** Byte swap of single bytes changes nothing. */
  lemma ByteSwapOfBytesIsCopy(src: seq<u8>, dst: seq<u8>, count: nat)
    requires |src| == |dst| == count
    ensures Transfer(src, dst, Bits8, true, true, true, count) == Some(src)
  {
    var r := Transfer(src, dst, Bits8, true, true, true, count).value;
    forall j | 0 <= j < count
      ensures r[j] == src[j]
    {
      SwapReversesWords(src, dst, Bits8, count, j, 0);
      assert j * WordBytes(Bits8) + 0 == j;
      assert j * WordBytes(Bits8) + WordBytes(Bits8) - 1 - 0 == j;
    }
    assert r == src;
  }

  /** With a fixed source, the destination is the first source word (swapped
      under byte swap) repeated over `count` words. */
  lemma FixedSourceFills(src: seq<u8>, dst: seq<u8>, size: TxSize, bswap: bool, count: nat, i: nat, b: nat)
    requires InBounds(|src|, |dst|, size, false, true, count)
    requires i < count && b < WordBytes(size)
    ensures Transfer(src, dst, size, false, true, bswap, count).Some?
    ensures i * WordBytes(size) + b < |dst|
    ensures Transfer(src, dst, size, false, true, bswap, count).value[i * WordBytes(size) + b] ==
      Fetch(src, 0, WordBytes(size), bswap)[b]
  {
    IncrementingWriteGathers(src, dst, size, false, bswap, count);
    GatheredRepeats(src, size, bswap, count, i, b);
  }

  /** With a fixed destination, the first word holds the last word read and
      every other byte keeps its prior value. */
  lemma {:induction false} FixedDestinationKeepsLast(src: seq<u8>, dst: seq<u8>, size: TxSize,
                                                     incrRead: bool, bswap: bool, n: nat)
    requires InBounds(|src|, |dst|, size, incrRead, false, n)
    requires n > 0
    ensures var w := WordBytes(size);
      var r := Moved(src, dst, size, incrRead, false, bswap, n);
      && r[..w] == Fetch(src, Offset(incrRead, n - 1, w), w, bswap)
      && r[w..] == dst[w..]
  {
    var w := WordBytes(size);
    InBoundsFewer(|src|, |dst|, size, incrRead, false, n);
    if n > 1 {
      FixedDestinationKeepsLast(src, dst, size, incrRead, bswap, n - 1);
    }
  }
}

=== FILE: types.dfy ===
/** Machine-level types shared by the whole model. */
module Types {

  /** An unsigned byte, as stored in a transfer buffer. */
  type u8 = x: int | 0 <= x < 0x100

  /** A 32-bit register value; addresses are written to registers as `u32`. */
  type u32 = x: int | 0 <= x < 0x1_0000_0000

  /** The DMA engine of the RP2040 has twelve channels, CH0 to CH11. */
  const NumChannels: nat := 12

  /** Identifies one hardware DMA channel. */
  type ChannelId = c: nat | c < NumChannels

  /** Optional value; `None` stands for a panic or an outcome the model does not describe. */
  datatype Option<+T> = None | Some(value: T)

  /** Addition in 32-bit address arithmetic (registers wrap around). */
  function AddWrap(a: u32, n: nat): (r: u32)
    ensures a + n < 0x1_0000_0000 ==> r == a + n
    ensures (r - a - n) % 0x1_0000_0000 == 0
  {
    (a + n) % 0x1_0000_0000
  }
}
